=== FILE: README.md ===
# Cyber Evidence Annotator — orchestration core in Dafny

This project models the orchestration core of the Cyber Evidence Annotator. The core has two parts.

- **The tool peer** (`Assignment/mcp_server.py`). It lists a fixed catalog of five tools and dispatches calls on them. The tools are `open_evidence_locker`, `draw_threat_border`, `stamp_classification`, `send_gmail_alert` and `close_evidence_locker`. The "evidence locker" is an MS Paint instance driven by UI automation. It is abstracted as a two-state flag, `Locker`, which stands for `get_paint_app()` returning an application or `None`. Whether the automation calls inside a tool raise is an input, `Effect`. This covers the calls inside each tool's `try` block and also `app.kill()`, which runs outside any `try`. The same type gives the outcome of spawning the peer and the handshake.
- **The orchestrator** (`run_mcp_interaction` in `Assignment/talk2mcp.py`). It turns one free-text prompt into at most one tool call. First a priority-ordered keyword match runs over the lower-cased prompt. A reply from an external planner may then override that choice. The orchestrator runs the chosen tool only if the peer listed it, and returns a `ChatResponse` with at most one `StepLog`. Any exception becomes an error response.

Modules, one per component:

- `Wrappers` (`wrappers.dfy`): `Option`.
- `Text` (`text.dfy`): ASCII lower-casing (`str.lower`), substring containment (Python's `in`), and first/last character search.
- `Registry` (`registry.dfy`) models `mcp_server.py`: the catalog, the dispatcher, and a session of calls served in sequence.
- `Decision` (`decision.dfy`) models the decision half of `run_mcp_interaction`: keyword rules, greedy brace-span extraction and the planner override.
- `Orchestrator` (`orchestrator.dfy`) models the rest of `run_mcp_interaction`. That is execution gating, `StepLog`/`ChatResponse` assembly and the error path. It also composes the orchestrator with the registry's own dispatcher end to end.

Some external things become inputs. The peer process is a `Peer` value: whether spawn and handshake succeed, what `list_tools` returns, and what each `call_tool` returns. The planner is a `Planner` value: its reply text, or `None` when the call raised, and a parse function that stands for `json.loads` of the extracted span, giving `None` when it raises.

Some behaviours of the code are easy to miss:

- `close_evidence_locker` calls `app.kill()` outside any `try` (`mcp_server.py:162-166`). A failure to kill therefore escapes the handler as an exception, unlike the failures of the other tools' automation, which become reply text (`Registry.HardFailures`).
- A tool name the planner returns that the peer did not list never reaches `call_tool`: the request gets the "didn't understand" message and logs no step (`talk2mcp.py:133,144-147`; `Orchestrator.UnlistedToolNeverCalled`).
- A planner object without a `"tool"` key overrides the rule-based choice with `None` (`talk2mcp.py:126`; `Decision.ToollessPlanClearsChoice`).

## Model

| member | source | states |
|---|---|---|
| `Registry.Parse` | Assignment/mcp_server.py:100-171 | A name the dispatcher recognises is that tool's wire name, and a name it does not recognise is no tool's name. |
| `Registry.ParseNameOf` | Assignment/mcp_server.py:100-171 | The dispatcher recognises a string as a tool exactly when it is that tool's wire name. |
| `Registry.NameOfInjective` | Assignment/mcp_server.py:38-90 | No two tools share a name. |
| `Registry.CatalogInDeclarationOrder` | Assignment/mcp_server.py:38-90 | The listed names are exactly the five tool names, in declaration order, pairwise distinct. |
| `Registry.DescriptorNames` | Assignment/mcp_server.py:39-89 | Each tool's descriptor is listed under that tool's own name, in the given order. |
| `Registry.Catalog` | Assignment/mcp_server.py:33-90 | Reading the names off `handle_list_tools`'s descriptors gives the five names in declaration order. |
| `Registry.CatalogDescribesDispatch` | Assignment/mcp_server.py:33-171 | Every listed descriptor names a tool the dispatcher has a branch for, and carries that tool's input schema. |
| `Registry.CatalogMatchesDispatch` | Assignment/mcp_server.py:100-171 | A name is listed in the catalog exactly when the dispatcher has a branch for it. |
| `Registry.SchemaShapes` | Assignment/mcp_server.py:42-88 | Only `stamp_classification` (`text`) and `send_gmail_alert` (`recipient`, `subject`, `body`) declare properties, all of type string and all required. The other three tools have empty property maps. |
| `Registry.ReadsWhatSchemaDeclares` | Assignment/mcp_server.py:140-158 | The table of argument keys each tool reads with `arguments.get` lists exactly the properties its schema declares. `Registry.DeclaredArgumentsRead` and `Registry.UndeclaredArgumentsIgnored` tie the table to the dispatcher in both directions. |
| `Registry.HandleCallTool` | Assignment/mcp_server.py:92-171 | An unknown name raises "Unknown tool: <name>". Every call that returns carries exactly one text block. |
| `Registry.HardFailures` | Assignment/mcp_server.py:100-171 | A call raises in exactly three cases: the name is unknown; `arguments` is `None` and the tool reads it (e-mail, or stamp on an open locker); or `app.kill()` raises while closing an open locker. |
| `Registry.GuardedWhenNotOpen` | Assignment/mcp_server.py:114-138 | When the locker is not open, draw and stamp return their "not open" error text, whatever the arguments and effect. They do not raise and do not change the state. |
| `Registry.OpenTransitions` | Assignment/mcp_server.py:100-112 | Open on an open locker replies "already open" and changes nothing. On a closed locker it opens it and reports Case #99281. If the launch raises, the locker stays closed and the reply carries the error. |
| `Registry.CloseIdempotent` | Assignment/mcp_server.py:162-168 | A successful close leaves the locker not open and reports "closed", or "was not open" if it was not open. A second close then reports "was not open" without error, whatever its effect. |
| `Registry.StampEchoes` | Assignment/mcp_server.py:135-152 | On an open locker, stamp uses the `text` argument, which defaults to "CONFIDENTIAL". The stamped text can be read back out of the success reply. |
| `Registry.EmailIgnoresLocker` | Assignment/mcp_server.py:154-160 | The e-mail tool gives the same reply in every locker state and leaves the state unchanged. The reply starts with "SUCCESS: Email sent to". Missing arguments default to soc-team@company.com, "Evidence Alert" and "Please review attached evidence.". |
| `Registry.DeclaredArgumentsRead` | Assignment/mcp_server.py:140-158 | Every declared argument is read. Take an open locker and automation that succeeds. Two calls whose argument maps differ only in the value of one declared argument return different outcomes. |
| `Registry.UndeclaredArgumentsIgnored` | Assignment/mcp_server.py:140-158 | Binding is permissive: dropping every argument the schema does not declare does not change the outcome. |
| `Registry.Run` | Assignment/mcp_server.py:92-171 | A session yields one outcome per call, and every call on an unknown name raises "Unknown tool: <name>" whatever the state. |
| `Registry.GuardedUntilOpened` | Assignment/mcp_server.py:114-138 | Take a session that starts with the locker not open and never calls the open tool. Every draw or stamp call in it returns its precondition text. |
| `Text.Lower` | Assignment/talk2mcp.py:77 | Lower-casing keeps the length, lowers each character in place, and leaves no upper-case letter. |
| `Text.LowerIdempotent` | Assignment/talk2mcp.py:77 | Lower-casing twice is the same as lower-casing once. |
| `Text.Contains` | Assignment/talk2mcp.py:79-98 | The empty pattern is always contained, a contained pattern is no longer than the text, and a prefix of the text is contained. |
| `Text.ContainsIff` | Assignment/talk2mcp.py:79 | `pat in s` holds exactly when `pat` occurs at some position of `s`. |
| `Text.MentionsAny` | Assignment/talk2mcp.py:79-98 | If any keyword of the list occurs in the text, the `or`-chain holds. |
| `Text.MentionsAnyIff` | Assignment/talk2mcp.py:79-98 | A chain of `or`-ed `in` tests holds exactly when one of the keywords occurs. |
| `Text.FirstIndexOf` | Assignment/talk2mcp.py:122 | Returns the first position of the character, or nothing exactly when the character does not occur. |
| `Text.LastIndexOf` | Assignment/talk2mcp.py:122 | Returns the last position of the character, or nothing exactly when the character does not occur. |
| `Decision.RuleSelect` | Assignment/talk2mcp.py:72-99 | Every tool the keyword rules select is one the dispatcher knows. |
| `Decision.FirstMatch` | Assignment/talk2mcp.py:79-99 | The priority table picks the first rule that fires, and picks nothing exactly when no rule fires. |
| `Decision.RuleSelectIsFirstMatch` | Assignment/talk2mcp.py:79-99 | The `if/elif` chain makes the same choice as first-match-wins over the priority table (open, stamp, border, e-mail, close). |
| `Decision.SelectsRuleIff` | Assignment/talk2mcp.py:79-99 | Rule k's tool and arguments are selected exactly when rule k fires on the lower-cased prompt and no earlier rule does. Nothing is selected exactly when no rule fires. |
| `Decision.SelectionIgnoresCase` | Assignment/talk2mcp.py:77-99 | Selecting on the lower-cased prompt gives the same result as selecting on the prompt. |
| `Decision.StampOutranksBorder` | Assignment/talk2mcp.py:82-88 | A prompt that mentions stamp, classify or confidential, and neither launch nor open, selects `stamp_classification` with `{text: "CONFIDENTIAL"}`. This holds even if the prompt also says "mark". |
| `Decision.EmailRuleArguments` | Assignment/talk2mcp.py:90-96 | When the e-mail rule fires, the arguments are always ciso@cybercorp.com, "Evidence Alert - Session 4" and "Evidence has been marked as CONFIDENTIAL.". |
| `Decision.BraceSpan` | Assignment/talk2mcp.py:122-124 | An extracted span starts with `{` and ends with `}`. |
| `Decision.BraceSpanIsLeftmostGreedy` | Assignment/talk2mcp.py:122-124 | A span is found exactly when some `{` comes before some `}`. The span is the leftmost match of `\{.*\}`, extended to the furthest `}`: it runs from the first `{` to the last `}`. |
| `Decision.PlanOf` | Assignment/talk2mcp.py:118-127 | A plan is obtained only from a reply that exists and contains both a `{` and a `}`. |
| `Decision.Decide` | Assignment/talk2mcp.py:101-130 | The decision is the rule-based choice unless a key is set and a plan was parsed, so the planner can only override. Without a key, the rule-based choice stands with "Task completed.". When a plan is parsed, the plan overrides the choice with its `tool` and its `args`, where `args` defaults to `{}`. The message then becomes "AI decided to call <tool>". |
| `Decision.PlannerFallsBack` | Assignment/talk2mcp.py:102-130 | With no key, or when the planner raises, no span is found or the span does not parse, the rule-based choice stands. |
| `Decision.ToollessPlanClearsChoice` | Assignment/talk2mcp.py:126 | A parsed plan without a `"tool"` entry overrides the rule-based choice with no tool. |
| `Orchestrator.Interact` | Assignment/talk2mcp.py:44-152 | An error response says "Failed", logs no step and carries a detail. A success response carries no detail. There is at most one step, and its tool is one the peer listed. |
| `Orchestrator.Executable` | Assignment/talk2mcp.py:133 | Against the registry's catalog, the gate `tool_to_call and tool_to_call in available_tools` passes exactly for names the dispatcher knows. |
| `Orchestrator.StepIffExecuted` | Assignment/talk2mcp.py:133-141 | A step is logged exactly when the peer starts, lists its tools, the selection is a non-empty listed name and its call returns. The step records that tool and the first block's text of the reply, or "Success" for an empty reply. |
| `Orchestrator.ExecutedResponse` | Assignment/talk2mcp.py:133-143 | When the selected tool is listed and its call returns, the response is a success with exactly that one step. |
| `Orchestrator.UnlistedToolNeverCalled` | Assignment/talk2mcp.py:133-147 | A missing, empty or unlisted selection is never sent to `call_tool`, so the response does not depend on what calls would do. It is a success with no step and the "didn't understand" message. |
| `Orchestrator.ErrorIffRaised` | Assignment/talk2mcp.py:149-152 | The request fails exactly when spawn/handshake, listing or the one call raises. It then returns status error, "Failed" and that exception's text. Otherwise it succeeds. Teardown of the session is assumed not to raise. |
| `Orchestrator.MessagesWithoutKey` | Assignment/talk2mcp.py:142-147 | Without a key, a miss gets the simulation-mode hint and no step. A hit gets "Execute command '<prompt>': Called <tool>.". |
| `Orchestrator.MessagesWithKey` | Assignment/talk2mcp.py:126-147 | With a key, a miss gets "I didn't understand that command or no matching tool found." without the simulation hint and logs no step. A hit keeps the decision's message, which `Decision.Decide` fixes as "AI decided to call <tool>" after a parsed plan and "Task completed." otherwise. |
| `Orchestrator.LocalPeer` | Assignment/mcp_server.py:170-171 | The peer that serves the registry answers a call on any unknown name with the "Unknown tool: <name>" exception. |
| `Orchestrator.LocalPeerServes` | Assignment/talk2mcp.py:133-134 | A peer serving the registry lists every tool the dispatcher knows. It answers such a call with the dispatcher's single-block reply, unless closing an open locker raises. |
| `Orchestrator.RuleSelectionRunsOnRegistry` | Assignment/talk2mcp.py:79-143 | Take a request without a key against the registry. Whenever the keyword rules select a tool, the request logs one step for that tool, whose result is the dispatcher's reply to the rule's arguments. The one exception is when the rules pick close on an open locker and `app.kill()` raises. |
| `Orchestrator.OpenRequestOpens` | Assignment/talk2mcp.py:79-80 | A prompt mentioning launch or open, without a key and with the locker not open, logs one `open_evidence_locker` step that reports the locker opened, when the launch succeeds. |
| `Orchestrator.StampRequestStamps` | Assignment/talk2mcp.py:82-85 | A stamp-intent prompt that says neither launch nor open, without a key and with the locker open, stamps "CONFIDENTIAL" when the automation succeeds. |
| `Orchestrator.EmailRequestSends` | Assignment/talk2mcp.py:90-96 | A prompt whose only keywords are e-mail ones, without a key, sends the alert with the three fixed arguments in every locker state. |

## Left out

- The MCP stdio transport is not modelled. That covers the subprocess spawn, the environment, `session.initialize`, `list_tools`, `call_tool`, and context-manager teardown. These are library I/O. A `Peer` value gives the outcomes of the spawn and handshake, the listing and the calls. Teardown has no outcome in the model; see the next line.
- Orchestrator.ErrorIffRaised: assumes that tearing down the two `async with` blocks (`talk2mcp.py:63-65`) does not raise, because `Peer` has no teardown outcome. In the code that exit runs inside the `try`, so a raising teardown would turn any response, including one that has logged a step, into "Failed".
- How the MCP library reports a handler exception to the client is not modelled. `Orchestrator.AsReply` assumes it surfaces as an exception from `call_tool`. If the library instead turns it into an error-flagged result whose text is the exception's message, then a failing `app.kill()` gives a success response with one step carrying that text, not "Failed".
- The pywinauto calls and `time.sleep` are not modelled. They appear only as the `Locker` flag and the `Effect` oracle. The draw tool's maximize-or-restore distinction is omitted, because both paths return the same text.
- The Gemini call is not modelled: `genai.configure`, the prompt built from the tool descriptions, and `generate_content`. Neither is `json.loads`. The planner is a reply string plus a parse function.
- Values in argument maps and plans are modelled as strings only. A non-string `"tool"` value is left out. So are `"args"` values that are `null` or not objects, and content blocks other than text. The code would raise on some of these (`TypeError`, `AttributeError`), and that path is not modelled.
- The FastAPI app, the `/` and `/chat` endpoints, templates, uvicorn and `print` logging are left out as web plumbing.
- `Assignment/create_evidence.py` is not part of this model. It draws and saves an image and has no stateable logic.
- Text.Lower: lowers ASCII letters only, because Unicode case folding is out of scope. `str.lower` also folds non-ASCII letters.

=== FILE: decision.dfy ===
/** The decision engine of the orchestrator (`run_mcp_interaction` in `Assignment/talk2mcp.py`):
    a priority-ordered keyword match over the lower-cased prompt, optionally overridden by
    the plan an external language model returns.

    The planner call and `json.loads` are not modelled: the planner's reply arrives as an
    optional string (absent when the call raised) and parsing as a function from the
    extracted span to an optional `Plan` (absent when `json.loads` raises). */
module Decision {
  import opened Wrappers
  import opened Text
  import opened Registry

  /** The pair `(tool_to_call, tool_args)`: a tool name, or `None` for no selection, and the
      argument map to call it with. */
  datatype Choice = Choice(tool: Option<string>, args: Args)

  const NoChoice := Choice(None, map[])

  const OpenWords: seq<string> := ["launch", "open"]
  const StampWords: seq<string> := ["stamp", "classify", "confidential"]
  const BorderWords: seq<string> := ["box", "border", "mark"]
  const EmailWords: seq<string> := ["email", "gmail", "send"]
  const CloseWords: seq<string> := ["close"]

  const StampArgs: Args := map["text" := "CONFIDENTIAL"]
  const EmailArgs: Args := map[
    "recipient" := "ciso@cybercorp.com",
    "subject" := "Evidence Alert - Session 4",
    "body" := "Evidence has been marked as CONFIDENTIAL."]

  /** The rule-based selection: the `if/elif` chain over the lower-cased prompt. */
  function RuleSelect(prompt: string): (c: Choice)
    ensures c.tool.Some? ==> Parse(c.tool.value).Some?
  {
    var p := Lower(prompt);
    var c :=
      if MentionsAny(p, OpenWords) then Choice(Some(NameOf(OpenEvidenceLocker)), map[])
      else if MentionsAny(p, StampWords) then Choice(Some(NameOf(StampClassification)), StampArgs)
      else if MentionsAny(p, BorderWords) then Choice(Some(NameOf(DrawThreatBorder)), map[])
      else if MentionsAny(p, EmailWords) then Choice(Some(NameOf(SendGmailAlert)), EmailArgs)
      else if MentionsAny(p, CloseWords) then Choice(Some(NameOf(CloseEvidenceLocker)), map[])
      else NoChoice;
    c
  }

  // ---------------------------------------------------------------------------
  // The same rules as a priority table

  /** A keyword rule: when any of `keywords` occurs, call `tool` with `args`. */
  datatype Rule = Rule(keywords: seq<string>, tool: ToolName, args: Args)

  /** The rules, highest priority first. */
  const Rules: seq<Rule> := [
    Rule(OpenWords, OpenEvidenceLocker, map[]),
    Rule(StampWords, StampClassification, StampArgs),
    Rule(BorderWords, DrawThreatBorder, map[]),
    Rule(EmailWords, SendGmailAlert, EmailArgs),
    Rule(CloseWords, CloseEvidenceLocker, map[])
  ]

  predicate Fires(r: Rule, p: string)
  {
    MentionsAny(p, r.keywords)
  }

  /** The first rule of `rules` that fires on `p`, if any. */
  function FirstMatch(rules: seq<Rule>, p: string): (r: Option<nat>)
    ensures r.Some? ==> r.value < |rules| && Fires(rules[r.value], p)
    ensures r.Some? ==> forall j :: 0 <= j < r.value ==> !Fires(rules[j], p)
    ensures r.None? ==> forall j :: 0 <= j < |rules| ==> !Fires(rules[j], p)
  {
    if rules == [] then None
    else if Fires(rules[0], p) then Some(0)
    else match FirstMatch(rules[1..], p)
      case None => None
      case Some(k) => Some(k + 1)
  }

  /** The choice the priority table makes for a prompt. */
  function TableSelect(prompt: string): Choice
  {
    match FirstMatch(Rules, Lower(prompt))
    case None => NoChoice
    case Some(k) => Choice(Some(NameOf(Rules[k].tool)), Rules[k].args)
  }

  /** The `if/elif` chain is the first-match-wins reading of the priority table. */
  lemma RuleSelectIsFirstMatch(prompt: string)
    ensures RuleSelect(prompt) == TableSelect(prompt)
  {
    var p := Lower(prompt);
    var k := FirstMatch(Rules, p);
    if k.Some? {
      assert k.value < 5;
      if k.value > 0 { assert !Fires(Rules[0], p); }
      if k.value > 1 { assert !Fires(Rules[1], p); }
      if k.value > 2 { assert !Fires(Rules[2], p); }
      if k.value > 3 { assert !Fires(Rules[3], p); }
      assert Fires(Rules[k.value], p);
    } else {
      assert !Fires(Rules[0], p) && !Fires(Rules[1], p) && !Fires(Rules[2], p);
      assert !Fires(Rules[3], p) && !Fires(Rules[4], p);
    }
  }

  /** The rule-based path selects rule `k`'s tool exactly when rule `k` fires on the
      lower-cased prompt and no higher-priority rule does; it selects nothing exactly
      when no rule fires. */
  lemma SelectsRuleIff(prompt: string, k: nat)
    requires k < |Rules|
    ensures RuleSelect(prompt) == Choice(Some(NameOf(Rules[k].tool)), Rules[k].args)
        <==> Fires(Rules[k], Lower(prompt)) && forall j :: 0 <= j < k ==> !Fires(Rules[j], Lower(prompt))
    ensures RuleSelect(prompt).tool.None? <==> forall j :: 0 <= j < |Rules| ==> !Fires(Rules[j], Lower(prompt))
  {
    RuleSelectIsFirstMatch(prompt);
    var p := Lower(prompt);
    var m := FirstMatch(Rules, p);
    if m.Some? && m.value != k {
      NameOfInjective(Rules[m.value].tool, Rules[k].tool);
      assert Rules[m.value].tool != Rules[k].tool;
    }
  }

  /** Selection depends only on the lower-cased prompt. */
  lemma SelectionIgnoresCase(prompt: string)
    ensures RuleSelect(Lower(prompt)) == RuleSelect(prompt)
  {
    LowerIdempotent(prompt);
  }

  /** A stamp-intent prompt is stamped even when it also says "mark", provided it does not ask
      to launch or open: the stamp rule outranks the border rule. */
  lemma StampOutranksBorder(prompt: string)
    requires !MentionsAny(Lower(prompt), OpenWords)
    requires MentionsAny(Lower(prompt), StampWords)
    ensures RuleSelect(prompt) == Choice(Some("stamp_classification"), map["text" := "CONFIDENTIAL"])
  {
  }

  /** The e-mail rule always supplies the same three arguments. */
  lemma EmailRuleArguments(prompt: string)
    requires RuleSelect(prompt).tool == Some("send_gmail_alert")
    ensures RuleSelect(prompt).args == map[
      "recipient" := "ciso@cybercorp.com",
      "subject" := "Evidence Alert - Session 4",
      "body" := "Evidence has been marked as CONFIDENTIAL."]
  {
  }

  // ---------------------------------------------------------------------------
  // Brace-span extraction: `re.search(r"\{.*\}", text, re.DOTALL)`

  /** The pattern `\{.*\}` (with `.` matching every character) matches `s[i..j + 1]`. */
  predicate SpanAt(s: string, i: int, j: int)
  {
    0 <= i < j < |s| && s[i] == '{' && s[j] == '}'
  }

  /** The span `re.search` returns: from the first `{` to the last `}`, provided the first
      `{` comes before the last `}`. */
  function BraceSpan(s: string): (r: Option<string>)
    ensures r.Some? ==> |r.value| >= 2 && r.value[0] == '{' && r.value[|r.value| - 1] == '}'
  {
    match (FirstIndexOf(s, '{'), LastIndexOf(s, '}'))
    case (Some(i), Some(j)) => if i < j then Some(s[i..j + 1]) else None
    case _ => None
  }

  /** `BraceSpan` is the regular-expression search: it finds a span exactly when the pattern
      matches somewhere, and then returns the leftmost match, extended as far as the greedy
      `.*` allows. */
  lemma BraceSpanIsLeftmostGreedy(s: string)
    ensures BraceSpan(s).None? <==> forall i, j :: !SpanAt(s, i, j)
    ensures BraceSpan(s).Some? ==>
      exists i, j :: SpanAt(s, i, j) && BraceSpan(s).value == s[i..j + 1]
        && (forall i', j' :: SpanAt(s, i', j') ==> i <= i')
        && (forall j' :: SpanAt(s, i, j') ==> j' <= j)
  {
    var fi := FirstIndexOf(s, '{');
    var lj := LastIndexOf(s, '}');
    if fi.Some? && lj.Some? && fi.value < lj.value {
      var i, j := fi.value, lj.value;
      assert SpanAt(s, i, j);
      assert forall i', j' :: SpanAt(s, i', j') ==> i <= i' && j' <= j;
    }
  }

  // ---------------------------------------------------------------------------
  // Planner override

  /** A parsed planner object: its `"tool"` entry (absent or null as `None`) and its
      `"args"` entry (absent as `None`). */
  datatype Plan = Plan(tool: Option<string>, args: Option<Args>)

  /** Python's truthiness of `api_key`: present and non-empty. */
  predicate HasKey(apiKey: Option<string>)
  {
    apiKey.Some? && apiKey.value != ""
  }

  /** The decision and the message it leaves behind (`final_message` before execution). */
  datatype Decided = Decided(choice: Choice, message: string)

  const DefaultMessage := "Task completed."

  /** How Python formats `tool_to_call` inside an f-string. */
  function Show(tool: Option<string>): string
  {
    match tool
    case None => "None"
    case Some(t) => t
  }

  /** The plan the planner's reply yields, if the call succeeded, a span was found and
      the span parsed to an object. */
  function PlanOf(reply: Option<string>, parse: string -> Option<Plan>): (p: Option<Plan>)
    ensures p.Some? ==> reply.Some? && '{' in reply.value && '}' in reply.value
  {
    match reply
    case None => None
    case Some(text) =>
      match BraceSpan(text)
      case None => None
      case Some(span) => parse(span)
  }

  /** Rule-based selection, then, with a key, the planner's override. */
  function Decide(prompt: string, apiKey: Option<string>, reply: Option<string>,
                  parse: string -> Option<Plan>): (d: Decided)
    ensures d.choice == RuleSelect(prompt) || (HasKey(apiKey) && PlanOf(reply, parse).Some?)
    ensures !HasKey(apiKey) ==> d == Decided(RuleSelect(prompt), DefaultMessage)
    ensures HasKey(apiKey) && PlanOf(reply, parse).Some? ==>
              var plan := PlanOf(reply, parse).value;
              d.choice == Choice(plan.tool, plan.args.GetOr(map[]))
              && d.message == "AI decided to call " + Show(plan.tool)
  {
    var rule := RuleSelect(prompt);
    if !HasKey(apiKey) then Decided(rule, DefaultMessage)
    else match PlanOf(reply, parse)
      case None => Decided(rule, DefaultMessage)
      case Some(plan) =>
        Decided(Choice(plan.tool, plan.args.GetOr(map[])), "AI decided to call " + Show(plan.tool))
  }

  /** The planner never leaves the engine without a decision: without a key, or when the
      planner raises, replies without a brace span, or the span does not parse, the
      rule-based choice stands. */
  lemma PlannerFallsBack(prompt: string, apiKey: Option<string>, reply: Option<string>,
                         parse: string -> Option<Plan>)
    requires !HasKey(apiKey) || reply.None? || BraceSpan(reply.value).None?
             || parse(BraceSpan(reply.value).value).None?
    ensures Decide(prompt, apiKey, reply, parse) == Decided(RuleSelect(prompt), DefaultMessage)
  {
  }

  /** A planner object without a `"tool"` entry overrides the rule-based choice with no tool. */
  lemma ToollessPlanClearsChoice(prompt: string, apiKey: Option<string>, text: string,
                                 parse: string -> Option<Plan>)
    requires HasKey(apiKey)
    requires BraceSpan(text).Some? && parse(BraceSpan(text).value).Some?
    requires parse(BraceSpan(text).value).value.tool.None?
    ensures Decide(prompt, apiKey, Some(text), parse).choice.tool.None?
  {
  }
}

=== FILE: orchestrator.dfy ===
/** The orchestrator (`run_mcp_interaction` in `Assignment/talk2mcp.py`): one request spawns
    the tool peer, lists its tools, decides on a tool, runs it if it is listed, and folds
    everything into a `ChatResponse`; any exception becomes an error response.

    The process spawn, the handshake, the list and call round trips and the planner are
    inputs: a `Peer` says what each round trip does, a `Planner` what the language model
    replies and how its JSON parses. */
module Orchestrator {
  import opened Wrappers
  import opened Text
  import opened Registry
  import opened Decision

  /** `ChatResponse.status`: "success" or "error". */
  datatype Status = Success | Error

  /** One executed tool call and the text it returned. */
  datatype StepLog = StepLog(tool: string, result: string)

  datatype ChatResponse = ChatResponse(status: Status, message: string, steps: seq<StepLog>, detail: Option<string>)

  /** What `session.list_tools()` does: return the listed names, or raise. */
  datatype ListReply = Listed(names: seq<string>) | ListRaised(message: string)

  /** What `session.call_tool(name, arguments)` does: return content blocks, or raise. */
  datatype CallReply = Replied(content: seq<Block>) | CallRaised(message: string)

  /** The tool peer as seen from one request: whether spawning it and the handshake succeed,
      what listing its tools gives, and what each call gives. Startup reuses `Effect`: it
      succeeds, or raises with a message. */
  datatype Peer = Peer(startup: Effect, listing: ListReply, call: (string, Args) -> CallReply)

  /** The external planner: its reply text (`None` when the call raised) and the JSON
      parser applied to the extracted span. */
  datatype Planner = Planner(reply: Option<string>, parse: string -> Option<Plan>)

  const FailedMessage := "Failed"
  const MissMessage := "I didn't understand that command or no matching tool found."
  const SimulationHint := " (Simulation Mode: Try 'launch', 'draw box', 'stamp text', 'send email')"

  /** The response for an exception anywhere in the session. */
  function Failure(error: string): ChatResponse
  {
    ChatResponse(Error, FailedMessage, [], Some(error))
  }

  /** `if tool_to_call and tool_to_call in available_tools`. */
  predicate Executable(tool: Option<string>, names: seq<string>)
    ensures names == CatalogNames() ==> (Executable(tool, names) <==> tool.Some? && Parse(tool.value).Some?)
  {
    tool.Some? && tool.value != "" && tool.value in names
  }

  /** The step's result text: the first block's text, or "Success" for empty content. */
  function ResultText(content: seq<Block>): string
  {
    if |content| > 0 then content[0].text else "Success"
  }

  /** The message for a request whose selection was not executed. */
  function MissText(apiKey: Option<string>): string
  {
    if HasKey(apiKey) then MissMessage else MissMessage + SimulationHint
  }

  /** The no-key message naming the prompt and the tool that was called. */
  function ExecutedText(prompt: string, tool: string): string
  {
    "Execute command '" + prompt + "': Called " + tool + "."
  }

  /** The message for a request whose selected tool ran. */
  function HitText(prompt: string, apiKey: Option<string>, decided: Decided): string
    requires decided.choice.tool.Some?
  {
    if HasKey(apiKey) then decided.message
    else ExecutedText(prompt, decided.choice.tool.value)
  }

  /** `run_mcp_interaction`. */
  function Interact(prompt: string, apiKey: Option<string>, peer: Peer, planner: Planner): (r: ChatResponse)
    ensures r.status == Error ==> r.message == FailedMessage && r.steps == [] && r.detail.Some?
    ensures r.status == Success ==> r.detail.None?
    ensures |r.steps| <= 1
    ensures |r.steps| == 1 ==> peer.listing.Listed? && r.steps[0].tool in peer.listing.names
  {
    match peer.startup
    case Raises(e) => Failure(e)
    case Succeeds =>
      match peer.listing
      case ListRaised(e) => Failure(e)
      case Listed(names) =>
        var decided := Decide(prompt, apiKey, planner.reply, planner.parse);
        if Executable(decided.choice.tool, names) then
          var tool := decided.choice.tool.value;
          match peer.call(tool, decided.choice.args)
          case CallRaised(e) => Failure(e)
          case Replied(content) =>
            ChatResponse(Success, HitText(prompt, apiKey, decided), [StepLog(tool, ResultText(content))], None)
        else
          ChatResponse(Success, MissText(apiKey), [], None)
  }

  /** The decision a request makes once its peer has listed its tools. */
  function DecisionOf(prompt: string, apiKey: Option<string>, planner: Planner): Decided
  {
    Decide(prompt, apiKey, planner.reply, planner.parse)
  }

  /** Whether the request reaches `call_tool`: the peer starts, lists its tools, and the
      decision names a listed tool. */
  predicate Calls(prompt: string, apiKey: Option<string>, peer: Peer, planner: Planner)
  {
    peer.startup == Succeeds && peer.listing.Listed?
    && Executable(DecisionOf(prompt, apiKey, planner).choice.tool, peer.listing.names)
  }

  /** A step is logged exactly when the selected tool is listed and its call returns; the
      step then records that tool and the first block of what it returned. */
  lemma StepIffExecuted(prompt: string, apiKey: Option<string>, peer: Peer, planner: Planner)
    ensures var r := Interact(prompt, apiKey, peer, planner);
      |r.steps| == 1 <==>
        Calls(prompt, apiKey, peer, planner)
        && peer.call(DecisionOf(prompt, apiKey, planner).choice.tool.value,
                     DecisionOf(prompt, apiKey, planner).choice.args).Replied?
    ensures var r := Interact(prompt, apiKey, peer, planner);
      |r.steps| == 1 ==>
        var c := DecisionOf(prompt, apiKey, planner).choice;
        r.steps[0] == StepLog(c.tool.value, ResultText(peer.call(c.tool.value, c.args).content))
  {
  }

  /** The response of a request whose selected tool is listed and whose call returns. */
  lemma ExecutedResponse(prompt: string, apiKey: Option<string>, peer: Peer, planner: Planner, content: seq<Block>)
    requires Calls(prompt, apiKey, peer, planner)
    requires var c := DecisionOf(prompt, apiKey, planner).choice;
      peer.call(c.tool.value, c.args) == Replied(content)
    ensures var d := DecisionOf(prompt, apiKey, planner);
      Interact(prompt, apiKey, peer, planner)
        == ChatResponse(Success, HitText(prompt, apiKey, d), [StepLog(d.choice.tool.value, ResultText(content))], None)
  {
  }

  /** A selection that is missing, empty or not listed — in particular an unknown tool the
      planner names — is never sent to `call_tool`: the response does not depend on what
      calls would do, logs no step, and says the command was not understood. */
  lemma UnlistedToolNeverCalled(prompt: string, apiKey: Option<string>, peer: Peer, planner: Planner,
                                otherCall: (string, Args) -> CallReply)
    requires peer.startup == Succeeds && peer.listing.Listed?
    requires !Calls(prompt, apiKey, peer, planner)
    ensures Interact(prompt, apiKey, peer, planner) == Interact(prompt, apiKey, peer.(call := otherCall), planner)
    ensures Interact(prompt, apiKey, peer, planner) == ChatResponse(Success, MissText(apiKey), [], None)
  {
  }

  /** The request fails exactly when spawning, listing or the one call raises, and the
      response then carries that exception's text; otherwise it succeeds. */
  lemma ErrorIffRaised(prompt: string, apiKey: Option<string>, peer: Peer, planner: Planner)
    ensures var r := Interact(prompt, apiKey, peer, planner);
      var c := DecisionOf(prompt, apiKey, planner).choice;
      && (peer.startup.Raises? ==> r == Failure(peer.startup.message))
      && (peer.startup == Succeeds && peer.listing.ListRaised? ==> r == Failure(peer.listing.message))
      && (Calls(prompt, apiKey, peer, planner) && peer.call(c.tool.value, c.args).CallRaised? ==>
            r == Failure(peer.call(c.tool.value, c.args).message))
      && (r.status == Error <==>
            peer.startup.Raises? || (peer.startup == Succeeds && peer.listing.ListRaised?)
            || (Calls(prompt, apiKey, peer, planner) && peer.call(c.tool.value, c.args).CallRaised?))
  {
  }

  /** Without a key the messages are fixed: a miss gets the simulation-mode hint, a hit
      names the prompt and the tool that was called. */
  lemma MessagesWithoutKey(prompt: string, apiKey: Option<string>, peer: Peer, planner: Planner)
    requires !HasKey(apiKey)
    requires peer.startup == Succeeds && peer.listing.Listed?
    ensures var r := Interact(prompt, apiKey, peer, planner);
      var tool := RuleSelect(prompt).tool;
      && (!Executable(tool, peer.listing.names) ==>
            r.message == MissMessage + SimulationHint && r.steps == [])
      && (Executable(tool, peer.listing.names) && peer.call(tool.value, RuleSelect(prompt).args).Replied? ==>
            r.message == ExecutedText(prompt, tool.value))
  {
  }

  /** With a key, a miss gets the plain "didn't understand" message, without the
      simulation-mode hint, and a hit keeps the decision's own message: "AI decided to
      call <tool>" after a parsed plan, or "Task completed." after falling back. */
  lemma MessagesWithKey(prompt: string, apiKey: Option<string>, peer: Peer, planner: Planner)
    requires HasKey(apiKey)
    requires peer.startup == Succeeds && peer.listing.Listed?
    ensures var r := Interact(prompt, apiKey, peer, planner);
      var d := Decide(prompt, apiKey, planner.reply, planner.parse);
      && (!Executable(d.choice.tool, peer.listing.names) ==>
            r.message == "I didn't understand that command or no matching tool found." && r.steps == [])
      && (Executable(d.choice.tool, peer.listing.names) && peer.call(d.choice.tool.value, d.choice.args).Replied? ==>
            r.message == d.message)
  {
  }

  // ---------------------------------------------------------------------------
  // The orchestrator against the registry's own dispatcher

  /** A call reply as the registry's dispatcher produces it. */
  function AsReply(o: Outcome): CallReply
  {
    match o
    case Returned(content, _) => Replied(content)
    case Raised(e) => CallRaised(e)
  }

  /** A peer that serves the registry: it starts, lists the catalog, and answers each call
      by dispatching it against `locker` with the automation behaving as `effect`. */
  function LocalPeer(locker: Locker, effect: Effect): (peer: Peer)
    ensures forall name, args :: Parse(name).None? ==>
      peer.call(name, args) == CallRaised("Unknown tool: " + name)
  {
    Peer(Succeeds, Listed(CatalogNames()),
         (name, args) => AsReply(HandleCallTool(name, Some(args), locker, effect)))
  }

  /** The local peer lists every tool the dispatcher knows and answers a call on it with the
      dispatcher's single-block reply, unless closing a running locker raises. */
  lemma LocalPeerServes(name: string, args: Args, locker: Locker, effect: Effect)
    requires Parse(name).Some?
    requires !(Parse(name) == Some(CloseEvidenceLocker) && locker == Open && effect.Raises?)
    ensures Executable(Some(name), LocalPeer(locker, effect).listing.names)
    ensures var o := HandleCallTool(name, Some(args), locker, effect);
      o.Returned? && LocalPeer(locker, effect).call(name, args) == Replied(o.content)
  {
    assert Executable(Some(name), CatalogNames()) by {
      CatalogMatchesDispatch(name);
    }
    var o := HandleCallTool(name, Some(args), locker, effect);
    assert o.Returned? by {
      HardFailures(name, Some(args), locker, effect);
    }
    assert LocalPeer(locker, effect).call(name, args) == AsReply(o);
  }

  /** End to end without a key: whenever the keyword rules select a tool, the request logs
      exactly one step for that tool, whose result is the dispatcher's reply to the rule's
      arguments, and reports success naming the tool. The exception is closing an open locker
      whose `app.kill()` raises. */
  lemma RuleSelectionRunsOnRegistry(prompt: string, locker: Locker, effect: Effect, planner: Planner)
    requires RuleSelect(prompt).tool.Some?
    requires !(RuleSelect(prompt).tool == Some(NameOf(CloseEvidenceLocker)) && locker == Open && effect.Raises?)
    ensures var c := RuleSelect(prompt);
      var o := HandleCallTool(c.tool.value, Some(c.args), locker, effect);
      && o.Returned?
      && Interact(prompt, None, LocalPeer(locker, effect), planner)
           == ChatResponse(Success, ExecutedText(prompt, c.tool.value),
                           [StepLog(c.tool.value, TextOf(o))], None)
  {
    var c := RuleSelect(prompt);
    var peer := LocalPeer(locker, effect);
    var o := HandleCallTool(c.tool.value, Some(c.args), locker, effect);
    LocalPeerServes(c.tool.value, c.args, locker, effect);
    assert DecisionOf(prompt, None, planner) == Decided(c, DefaultMessage);
    ExecutedResponse(prompt, None, peer, planner, o.content);
  }

  /** A request that asks to open the locker, without a key, opens it from a closed state
      when the launch succeeds: one step for the open tool reporting that the locker opened. */
  lemma OpenRequestOpens(prompt: string, planner: Planner)
    requires MentionsAny(Lower(prompt), OpenWords)
    ensures Interact(prompt, None, LocalPeer(NotOpen, Succeeds), planner)
         == ChatResponse(Success, ExecutedText(prompt, "open_evidence_locker"),
                         [StepLog("open_evidence_locker", OpenedText)], None)
  {
    RuleSelectionRunsOnRegistry(prompt, NotOpen, Succeeds, planner);
  }

  /** A request that asks to stamp (and not to launch or open), without a key, stamps
      "CONFIDENTIAL" on an open locker when the automation succeeds, even if it also says "mark". */
  lemma StampRequestStamps(prompt: string, planner: Planner)
    requires !MentionsAny(Lower(prompt), OpenWords)
    requires MentionsAny(Lower(prompt), StampWords)
    ensures Interact(prompt, None, LocalPeer(Open, Succeeds), planner)
         == ChatResponse(Success, ExecutedText(prompt, "stamp_classification"),
                         [StepLog("stamp_classification", StampedText("CONFIDENTIAL"))], None)
  {
    StampOutranksBorder(prompt);
    var o := HandleCallTool(NameOf(StampClassification), Some(StampArgs), Open, Succeeds);
    assert o == Reply(StampedText("CONFIDENTIAL"), Open) by {
      assert Get(StampArgs, "text", DefaultStampText) == "CONFIDENTIAL";
    }
    RuleSelectionRunsOnRegistry(prompt, Open, Succeeds, planner);
  }

  /** A request whose only keywords are e-mail ones, without a key, sends the alert with the
      rule's three fixed arguments, whatever the locker state. */
  lemma EmailRequestSends(prompt: string, locker: Locker, effect: Effect, planner: Planner)
    requires !MentionsAny(Lower(prompt), OpenWords) && !MentionsAny(Lower(prompt), StampWords)
    requires !MentionsAny(Lower(prompt), BorderWords) && MentionsAny(Lower(prompt), EmailWords)
    ensures Interact(prompt, None, LocalPeer(locker, effect), planner)
         == ChatResponse(Success, ExecutedText(prompt, "send_gmail_alert"),
                         [StepLog("send_gmail_alert",
                                  EmailText("ciso@cybercorp.com", "Evidence Alert - Session 4",
                                            "Evidence has been marked as CONFIDENTIAL."))], None)
  {
    assert RuleSelect(prompt) == Choice(Some(NameOf(SendGmailAlert)), EmailArgs);
    var o := HandleCallTool(NameOf(SendGmailAlert), Some(EmailArgs), locker, effect);
    assert o.Returned? && TextOf(o) == EmailText("ciso@cybercorp.com", "Evidence Alert - Session 4",
                                                 "Evidence has been marked as CONFIDENTIAL.") by {
      EmailIgnoresLocker(EmailArgs, locker, effect);
      assert Get(EmailArgs, "recipient", DefaultRecipient) == "ciso@cybercorp.com";
      assert Get(EmailArgs, "subject", DefaultSubject) == "Evidence Alert - Session 4";
      assert Get(EmailArgs, "body", DefaultBody) == "Evidence has been marked as CONFIDENTIAL.";
    }
    RuleSelectionRunsOnRegistry(prompt, locker, effect, planner);
  }
}

=== FILE: registry.dfy ===
/** The tool-execution peer of the Cyber Evidence Annotator (`Assignment/mcp_server.py`):
    the fixed catalog of five tools and the dispatcher that runs one of them.

    The desktop application behind the tools (MS Paint driven by UI automation) is
    abstracted twice: whether an instance is running is the `Locker` flag, which stands
    in for `get_paint_app()` returning an application or `None`; and whether the
    automation calls a tool makes raise is an `Effect` supplied by the caller. That covers
    the calls inside each tool's `try` block and also `app.kill()`, which the close tool
    makes outside any `try`. */
module Registry {
  import opened Wrappers

  /** The five tools, in declaration order. */
  datatype ToolName =
    | OpenEvidenceLocker
    | DrawThreatBorder
    | StampClassification
    | SendGmailAlert
    | CloseEvidenceLocker

  /** The wire name of each tool. */
  function NameOf(t: ToolName): string
  {
    match t
    case OpenEvidenceLocker => "open_evidence_locker"
    case DrawThreatBorder => "draw_threat_border"
    case StampClassification => "stamp_classification"
    case SendGmailAlert => "send_gmail_alert"
    case CloseEvidenceLocker => "close_evidence_locker"
  }

  /** The `if name == ... elif ...` chain of the dispatcher: which tool, if any, a name denotes. */
  function Parse(name: string): (t: Option<ToolName>)
    ensures t.Some? ==> NameOf(t.value) == name
    ensures t.None? ==> forall u :: NameOf(u) != name
  {
    if name == "open_evidence_locker" then Some(OpenEvidenceLocker)
    else if name == "draw_threat_border" then Some(DrawThreatBorder)
    else if name == "stamp_classification" then Some(StampClassification)
    else if name == "send_gmail_alert" then Some(SendGmailAlert)
    else if name == "close_evidence_locker" then Some(CloseEvidenceLocker)
    else None
  }

  /** Parsing and naming are inverse: a string denotes a tool exactly when it is that tool's name. */
  lemma ParseNameOf(name: string, t: ToolName)
    ensures Parse(name) == Some(t) <==> NameOf(t) == name
  {
  }

  /** Distinct tools have distinct names. */
  lemma NameOfInjective(t: ToolName, u: ToolName)
    ensures NameOf(t) == NameOf(u) ==> t == u
  {
  }

  // ---------------------------------------------------------------------------
  // Catalog

  /** One declared argument of a tool's input schema. */
  datatype Property = Property(name: string, kind: string, description: string)

  /** The JSON schema of a tool's arguments (always of type "object"). */
  datatype InputSchema = InputSchema(properties: seq<Property>, required: seq<string>)

  datatype ToolDescriptor = ToolDescriptor(name: string, description: string, inputSchema: InputSchema)

  /** The human-readable description each tool is listed with. */
  function Description(t: ToolName): string
  {
    match t
    case OpenEvidenceLocker => "Opens the Evidence Locker (MS Paint) with the current evidence file."
    case DrawThreatBorder => "Draws a red border around the evidence (canvas) to mark it as a threat."
    case StampClassification =>
      "Stamps text onto the evidence. Use this to mark evidence as CONFIDENTIAL or MALWARE."
    case SendGmailAlert =>
      "[BONUS] Sends an email alert via Gmail API to notify the SOC team about the evidence."
    case CloseEvidenceLocker => "Closes the Evidence Locker (MS Paint)."
  }

  /** The input schema each tool is listed with. */
  function SchemaOf(t: ToolName): InputSchema
  {
    match t
    case StampClassification =>
      InputSchema(
        [Property("text", "string", "The classification text to stamp (e.g. 'CONFIDENTIAL')")],
        ["text"])
    case SendGmailAlert =>
      InputSchema(
        [ Property("recipient", "string", "Email address of recipient"),
          Property("subject", "string", "Subject line"),
          Property("body", "string", "Email body content") ],
        ["recipient", "subject", "body"])
    case _ => InputSchema([], [])
  }

  function DescriptorOf(t: ToolName): ToolDescriptor
  {
    ToolDescriptor(NameOf(t), Description(t), SchemaOf(t))
  }

  /** The order in which the tools are declared. */
  const DeclarationOrder: seq<ToolName> :=
    [OpenEvidenceLocker, DrawThreatBorder, StampClassification, SendGmailAlert, CloseEvidenceLocker]

  /** The descriptors of the given tools, in order. */
  function DescriptorsOf(ts: seq<ToolName>): (ds: seq<ToolDescriptor>)
    ensures |ds| == |ts|
    ensures forall i :: 0 <= i < |ts| ==> ds[i] == DescriptorOf(ts[i])
  {
    if ts == [] then [] else [DescriptorOf(ts[0])] + DescriptorsOf(ts[1..])
  }

  /** The wire names of the given tools, in order. */
  function NamesOfTools(ts: seq<ToolName>): (names: seq<string>)
    ensures |names| == |ts|
    ensures forall i :: 0 <= i < |ts| ==> names[i] == NameOf(ts[i])
  {
    if ts == [] then [] else [NameOf(ts[0])] + NamesOfTools(ts[1..])
  }

  /** `handle_list_tools`: one descriptor per tool, in declaration order. */
  function Catalog(): (c: seq<ToolDescriptor>)
    ensures NamesOf(c) == CatalogNames()
  {
    DescriptorNames(DeclarationOrder);
    DescriptorsOf(DeclarationOrder)
  }

  /** Every listed descriptor names a tool the dispatcher knows and carries that tool's schema. */
  lemma CatalogDescribesDispatch()
    ensures forall i :: 0 <= i < |Catalog()| ==>
      Parse(Catalog()[i].name).Some? && Catalog()[i].inputSchema == SchemaOf(Parse(Catalog()[i].name).value)
  {
    DescribedToolsDispatch(DeclarationOrder);
  }

  /** Each descriptor's name parses back to the tool it describes. */
  lemma DescribedToolsDispatch(ts: seq<ToolName>)
    ensures forall i :: 0 <= i < |ts| ==>
      Parse(DescriptorsOf(ts)[i].name) == Some(ts[i])
  {
    forall i | 0 <= i < |ts|
      ensures Parse(DescriptorsOf(ts)[i].name) == Some(ts[i])
    {
      ParseNameOf(NameOf(ts[i]), ts[i]);
    }
  }

  /** The names of a list of descriptors, in order (`t.name for t in tools`). */
  function NamesOf(ds: seq<ToolDescriptor>): (names: seq<string>)
    ensures |names| == |ds|
    ensures forall i :: 0 <= i < |ds| ==> names[i] == ds[i].name
  {
    if ds == [] then [] else [ds[0].name] + NamesOf(ds[1..])
  }

  /** The names a client discovers by listing the tools, in catalog order. */
  function CatalogNames(): seq<string>
  {
    NamesOfTools(DeclarationOrder)
  }

  /** Each tool's descriptor is listed under the tool's own name. */
  lemma {:induction false} DescriptorNames(ts: seq<ToolName>)
    ensures NamesOf(DescriptorsOf(ts)) == NamesOfTools(ts)
  {
    var ds := DescriptorsOf(ts);
    assert forall i :: 0 <= i < |ts| ==> NamesOf(ds)[i] == NamesOfTools(ts)[i];
  }

  /** The catalog lists exactly the five tools, once each, in declaration order. */
  lemma CatalogInDeclarationOrder()
    ensures CatalogNames() == ["open_evidence_locker", "draw_threat_border", "stamp_classification",
                               "send_gmail_alert", "close_evidence_locker"]
    ensures forall i, j :: 0 <= i < j < |CatalogNames()| ==> CatalogNames()[i] != CatalogNames()[j]
  {
  }

  /** The catalog and the dispatcher agree: a name is listed exactly when the dispatcher knows it. */
  lemma CatalogMatchesDispatch(name: string)
    ensures name in CatalogNames() <==> Parse(name).Some?
  {
  }

  /** The argument names a tool's schema declares. */
  function PropertyNames(t: ToolName): seq<string>
  {
    var ps := SchemaOf(t).properties;
    seq(|ps|, i requires 0 <= i < |ps| => ps[i].name)
  }

  /** Only the stamp and e-mail tools declare arguments; each declares every argument as required
      and as a string. */
  lemma SchemaShapes(t: ToolName)
    ensures PropertyNames(t) == SchemaOf(t).required
    ensures forall p :: p in SchemaOf(t).properties ==> p.kind == "string"
    ensures t == StampClassification ==> PropertyNames(t) == ["text"]
    ensures t == SendGmailAlert ==> PropertyNames(t) == ["recipient", "subject", "body"]
    ensures t !in {StampClassification, SendGmailAlert} ==> PropertyNames(t) == []
  {
  }

  // ---------------------------------------------------------------------------
  // Dispatch

  /** A call's argument map; only string values are modelled. */
  type Args = map<string, string>

  /** Python's `arguments.get(key, default)`. */
  function Get(arguments: Args, key: string, default: string): string
  {
    if key in arguments then arguments[key] else default
  }

  /** Whether an MS Paint instance is running (`get_paint_app()` returns an app or `None`). */
  datatype Locker = NotOpen | Open

  /** What an external action does: succeed, or raise with a message. For the tools it is the
      UI automation, both inside a tool's `try` block and `app.kill()` outside it; for a
      request it is also spawning the peer and the handshake. */
  datatype Effect = Succeeds | Raises(message: string)

  /** A content block of a tool result; this system only produces text. */
  datatype Block = TextBlock(text: string)

  /** What one call of the dispatcher produces: the returned content together with the
      locker state afterwards, or an exception that escapes the handler. */
  datatype Outcome = Returned(content: seq<Block>, after: Locker) | Raised(error: string)

  const AlreadyOpenText := "Evidence Locker is already open."
  const OpenedText := "Evidence Locker (MS Paint) opened with Case #99281."
  const DrawNotOpenText := "Error: Evidence Locker is not open. Call open_evidence_locker first."
  const BorderDrawnText := "Threat Border drawn (Simulated by focusing/maximizing window)."
  const StampNotOpenText := "Error: Evidence Locker is not open."
  const ClosedText := "Evidence Locker closed."
  const WasNotOpenText := "Evidence Locker was not open."

  const DefaultStampText := "CONFIDENTIAL"
  const DefaultRecipient := "soc-team@company.com"
  const DefaultSubject := "Evidence Alert"
  const DefaultBody := "Please review attached evidence."

  /** Python's `str(e)` for `None.get(...)`: the exception raised when `arguments` is `None`. */
  const NoArgumentsError := "'NoneType' object has no attribute 'get'"

  function StampedText(text: string): string
  {
    "Stamped '" + text + "' on the evidence."
  }

  function EmailText(recipient: string, subject: string, body: string): string
  {
    "SUCCESS: Email sent to " + recipient + " via Gmail API.\nSubject: " + subject + "\nBody: " + body
  }

  /** A single text block. */
  function Reply(text: string, after: Locker): Outcome
  {
    Returned([TextBlock(text)], after)
  }

  /** `handle_call_tool`: runs the named tool against the current locker state.
      Every tool variant turns its own automation failure into an error text, except that
      `app.kill()` in the close tool sits outside any `try`; an unknown name, and a `None`
      argument map where the tool reads its arguments, raise. */
  function HandleCallTool(name: string, arguments: Option<Args>, locker: Locker, effect: Effect): (o: Outcome)
    ensures Parse(name).None? ==> o == Raised("Unknown tool: " + name)
    ensures o.Returned? ==> |o.content| == 1
  {
    match Parse(name)
    case None => Raised("Unknown tool: " + name)

    case Some(OpenEvidenceLocker) =>
      if locker == Open then Reply(AlreadyOpenText, Open)
      else (match effect
        case Succeeds => Reply(OpenedText, Open)
        case Raises(e) => Reply("Error opening Paint: " + e, NotOpen))

    case Some(DrawThreatBorder) =>
      if locker == NotOpen then Reply(DrawNotOpenText, NotOpen)
      else (match effect
        case Succeeds => Reply(BorderDrawnText, Open)
        case Raises(e) => Reply("Error processing evidence: " + e, Open))

    case Some(StampClassification) =>
      if locker == NotOpen then Reply(StampNotOpenText, NotOpen)
      else (match arguments
        case None => Raised(NoArgumentsError)
        case Some(args) =>
          var text := Get(args, "text", DefaultStampText);
          match effect
          case Succeeds => Reply(StampedText(text), Open)
          case Raises(e) => Reply("Error stamping text: " + e, Open))

    case Some(SendGmailAlert) =>
      (match arguments
        case None => Raised(NoArgumentsError)
        case Some(args) =>
          var recipient := Get(args, "recipient", DefaultRecipient);
          var subject := Get(args, "subject", DefaultSubject);
          var body := Get(args, "body", DefaultBody);
          Reply(EmailText(recipient, subject, body), locker))

    case Some(CloseEvidenceLocker) =>
      if locker == Open then
        (match effect
          case Succeeds => Reply(ClosedText, NotOpen)
          case Raises(e) => Raised(e))
      else Reply(WasNotOpenText, NotOpen)
  }

  /** Whether the tool reads its argument map (calls `arguments.get`) when run from `locker`. */
  predicate ReadsArguments(t: ToolName, locker: Locker)
  {
    t == SendGmailAlert || (t == StampClassification && locker == Open)
  }

  /** The hard failures of the dispatcher, and nothing else: an unknown name, a `None` argument
      map reaching `arguments.get`, or `app.kill()` raising while closing a running locker.
      Every other call returns exactly one text block. */
  lemma HardFailures(name: string, arguments: Option<Args>, locker: Locker, effect: Effect)
    ensures HandleCallTool(name, arguments, locker, effect).Raised? <==>
              || Parse(name).None?
              || (arguments.None? && ReadsArguments(Parse(name).value, locker))
              || (Parse(name) == Some(CloseEvidenceLocker) && locker == Open && effect.Raises?)
  {
  }

  /** The text of the single block a tool returned. */
  function TextOf(o: Outcome): string
    requires o.Returned? && |o.content| == 1
  {
    o.content[0].text
  }

  /** The text the draw and stamp tools return when the locker is not open. */
  function NotOpenText(t: ToolName): string
  {
    if t == DrawThreatBorder then DrawNotOpenText else StampNotOpenText
  }

  /** The draw and stamp tools refuse to run while the locker is not open: they return a
      precondition text, never raise, and leave the state alone, whatever the arguments. */
  lemma GuardedWhenNotOpen(name: string, arguments: Option<Args>, effect: Effect)
    requires Parse(name) == Some(DrawThreatBorder) || Parse(name) == Some(StampClassification)
    ensures HandleCallTool(name, arguments, NotOpen, effect) == Reply(NotOpenText(Parse(name).value), NotOpen)
  {
  }

  /** Opening is a no-op on an open locker and otherwise opens it unless the launch raises,
      in which case the locker stays closed and the reply carries the error. */
  lemma OpenTransitions(arguments: Option<Args>, locker: Locker, effect: Effect)
    ensures var o := HandleCallTool(NameOf(OpenEvidenceLocker), arguments, locker, effect);
      && o.Returned?
      && (locker == Open ==> o == Reply(AlreadyOpenText, Open))
      && (locker == NotOpen && effect == Succeeds ==> o == Reply(OpenedText, Open))
      && (locker == NotOpen && effect.Raises? ==>
            o == Reply("Error opening Paint: " + effect.message, NotOpen))
  {
  }

  /** Closing is idempotent: after a successful close the locker is not open, and closing
      again reports that it was not open, without error, whatever the second call's effect. */
  lemma CloseIdempotent(arguments: Option<Args>, arguments': Option<Args>, locker: Locker, effect': Effect)
    ensures var first := HandleCallTool(NameOf(CloseEvidenceLocker), arguments, locker, Succeeds);
      && first.Returned? && first.after == NotOpen
      && TextOf(first) == (if locker == Open then ClosedText else WasNotOpenText)
      && HandleCallTool(NameOf(CloseEvidenceLocker), arguments', first.after, effect')
           == Reply(WasNotOpenText, NotOpen)
  {
  }

  /** Recovers the stamped text from the stamp tool's success reply. */
  function StampedTextOf(reply: string): (r: Option<string>)
  {
    var prefix := "Stamped '";
    var suffix := "' on the evidence.";
    if |reply| >= |prefix| + |suffix| && reply[..|prefix|] == prefix && reply[|reply| - |suffix|..] == suffix
    then Some(reply[|prefix|..|reply| - |suffix|])
    else None
  }

  /** On an open locker the stamp tool stamps the `text` argument, defaulting to
      "CONFIDENTIAL", and its reply echoes exactly the stamped text back. */
  lemma StampEchoes(args: Args)
    ensures var o := HandleCallTool(NameOf(StampClassification), Some(args), Open, Succeeds);
      var stamped := if "text" in args then args["text"] else "CONFIDENTIAL";
      && o.Returned? && o.after == Open
      && StampedTextOf(TextOf(o)) == Some(stamped)
  {
    var o := HandleCallTool(NameOf(StampClassification), Some(args), Open, Succeeds);
    var stamped := if "text" in args then args["text"] else "CONFIDENTIAL";
    var prefix, suffix := "Stamped '", "' on the evidence.";
    assert TextOf(o) == prefix + stamped + suffix;
    assert TextOf(o)[|prefix|..|TextOf(o)| - |suffix|] == stamped;
  }

  const EmailPrefix := "SUCCESS: Email sent to "

  /** The e-mail tool ignores the locker: from any state it leaves the state alone and
      reports success to the given recipient, each missing argument taking its default. */
  lemma EmailIgnoresLocker(args: Args, locker: Locker, effect: Effect)
    ensures var o := HandleCallTool(NameOf(SendGmailAlert), Some(args), locker, effect);
      && o.Returned? && o.after == locker
      && o == HandleCallTool(NameOf(SendGmailAlert), Some(args), NotOpen, Succeeds).(after := locker)
      && TextOf(o)[..|EmailPrefix|] == EmailPrefix
      && TextOf(o) == EmailText(Get(args, "recipient", "soc-team@company.com"),
                                Get(args, "subject", "Evidence Alert"),
                                Get(args, "body", "Please review attached evidence."))
  {
  }

  /** The argument names a tool reads from its argument map. */
  function Declared(t: ToolName): set<string>
  {
    match t
    case StampClassification => {"text"}
    case SendGmailAlert => {"recipient", "subject", "body"}
    case _ => {}
  }

  /** The argument names a tool reads are exactly those its schema declares. */
  lemma ReadsWhatSchemaDeclares(t: ToolName)
    ensures forall k :: k in Declared(t) <==> k in PropertyNames(t)
  {
    SchemaShapes(t);
  }

  /** A string placed between a fixed prefix and a fixed suffix can be read back. */
  lemma {:induction false} Cancel(p: string, a: string, b: string, q: string)
    requires p + a + q == p + b + q
    ensures a == b
  {
    assert |a| == |b|;
    assert (p + a + q)[|p|..|p| + |a|] == a;
    assert (p + b + q)[|p|..|p| + |b|] == b;
  }

  /** The e-mail reply regrouped around its recipient and around its subject. */
  lemma EmailSplits(recipient: string, subject: string, body: string)
    ensures EmailText(recipient, subject, body)
         == EmailPrefix + recipient + (" via Gmail API.\nSubject: " + subject + "\nBody: " + body)
    ensures EmailText(recipient, subject, body)
         == (EmailPrefix + recipient + " via Gmail API.\nSubject: ") + subject + ("\nBody: " + body)
  {
    var p, q1, q2 := EmailPrefix, " via Gmail API.\nSubject: ", "\nBody: ";
    assert EmailText(recipient, subject, body) == p + recipient + q1 + subject + q2 + body;
  }

  /** Conversely, every declared argument is read: on an open locker with succeeding
      automation, two calls whose argument maps differ only in the value of one declared
      argument produce different outcomes. */
  lemma DeclaredArgumentsRead(t: ToolName, k: string, a: string, b: string, args: Args)
    requires k in Declared(t) && a != b
    ensures HandleCallTool(NameOf(t), Some(args[k := a]), Open, Succeeds)
         != HandleCallTool(NameOf(t), Some(args[k := b]), Open, Succeeds)
  {
    var A, B := args[k := a], args[k := b];
    if HandleCallTool(NameOf(t), Some(A), Open, Succeeds) == HandleCallTool(NameOf(t), Some(B), Open, Succeeds) {
      var sep1, sep2 := " via Gmail API.\nSubject: ", "\nBody: ";
      var r, sub, body := Get(args, "recipient", DefaultRecipient), Get(args, "subject", DefaultSubject),
                          Get(args, "body", DefaultBody);
      if t == StampClassification {
        assert StampedText(a) == StampedText(b);
        Cancel("Stamped '", a, b, "' on the evidence.");
      } else if k == "recipient" {
        EmailSplits(a, sub, body);
        EmailSplits(b, sub, body);
        Cancel(EmailPrefix, a, b, sep1 + sub + sep2 + body);
      } else if k == "subject" {
        EmailSplits(r, a, body);
        EmailSplits(r, b, body);
        Cancel(EmailPrefix + r + sep1, a, b, sep2 + body);
      } else {
        assert EmailText(r, sub, a) == EmailText(r, sub, b);
        Cancel(EmailPrefix + r + sep1 + sub + sep2, a, b, "");
      }
    }
  }

  /** `args` with every key the tool does not declare dropped. */
  function Restrict(args: Args, keys: set<string>): Args
  {
    map k | k in args && k in keys :: args[k]
  }

  /** Permissive binding: arguments the schema does not declare are ignored, so the outcome
      of a known tool depends only on the declared ones. */
  lemma UndeclaredArgumentsIgnored(t: ToolName, args: Args, locker: Locker, effect: Effect)
    ensures HandleCallTool(NameOf(t), Some(args), locker, effect)
         == HandleCallTool(NameOf(t), Some(Restrict(args, Declared(t))), locker, effect)
  {
    var r := Restrict(args, Declared(t));
    match t
    case StampClassification =>
      assert Get(r, "text", DefaultStampText) == Get(args, "text", DefaultStampText);
    case SendGmailAlert =>
      assert Get(r, "recipient", DefaultRecipient) == Get(args, "recipient", DefaultRecipient);
      assert Get(r, "subject", DefaultSubject) == Get(args, "subject", DefaultSubject);
      assert Get(r, "body", DefaultBody) == Get(args, "body", DefaultBody);
    case _ =>
  }

  // ---------------------------------------------------------------------------
  // A session: calls served one after another against the same locker

  datatype Call = Call(name: string, arguments: Option<Args>, effect: Effect)

  /** The locker state after an outcome; a raised call changes nothing. */
  function After(locker: Locker, o: Outcome): Locker
  {
    if o.Returned? then o.after else locker
  }

  /** Serves `calls` in order, each against the state the previous one left behind. */
  function Run(locker: Locker, calls: seq<Call>): (outs: seq<Outcome>)
    ensures |outs| == |calls|
    ensures forall i :: 0 <= i < |calls| && Parse(calls[i].name).None? ==>
      outs[i] == Raised("Unknown tool: " + calls[i].name)
    decreases |calls|
  {
    if calls == [] then []
    else
      var o := HandleCallTool(calls[0].name, calls[0].arguments, locker, calls[0].effect);
      [o] + Run(After(locker, o), calls[1..])
  }

  /** In a session that starts with the locker not open and never calls the open tool, every
      draw or stamp call returns its precondition text. */
  lemma {:induction false} GuardedUntilOpened(calls: seq<Call>)
    requires forall i :: 0 <= i < |calls| ==> calls[i].name != NameOf(OpenEvidenceLocker)
    ensures forall i :: 0 <= i < |calls| && Parse(calls[i].name) in {Some(DrawThreatBorder), Some(StampClassification)}
              ==> Run(NotOpen, calls)[i] == Reply(NotOpenText(Parse(calls[i].name).value), NotOpen)
    decreases |calls|
  {
    if calls != [] {
      var c := calls[0];
      var o := HandleCallTool(c.name, c.arguments, NotOpen, c.effect);
      ParseNameOf(c.name, OpenEvidenceLocker);
      assert After(NotOpen, o) == NotOpen;
      GuardedUntilOpened(calls[1..]);
      assert Run(NotOpen, calls) == [o] + Run(NotOpen, calls[1..]);
    }
  }
}

=== FILE: text.dfy ===
/** String primitives the decision engine relies on: ASCII lower-casing (`str.lower`),
    substring containment (Python's `needle in haystack`) and first/last character search. */
module Text {
  import opened Wrappers

  /** Lower-cases one ASCII letter; every other character is left alone. */
  function LowerChar(c: char): char
  {
    if 'A' <= c <= 'Z' then (c as int + 32) as char else c
  }

  predicate IsUpper(c: char)
  {
    'A' <= c <= 'Z'
  }

  /** `s.lower()` restricted to ASCII: same length, each character lowered in place. */
  function Lower(s: string): (r: string)
    ensures |r| == |s|
    ensures forall i :: 0 <= i < |s| ==> r[i] == LowerChar(s[i])
    ensures forall i :: 0 <= i < |r| ==> !IsUpper(r[i])
  {
    if s == [] then [] else [LowerChar(s[0])] + Lower(s[1..])
  }

  /** Lower-casing a string that has no upper-case letters changes nothing. */
  lemma LowerOfLowered(s: string)
    requires forall i :: 0 <= i < |s| ==> !IsUpper(s[i])
    ensures Lower(s) == s
  {
  }

  /** Lower-casing is idempotent. */
  lemma LowerIdempotent(s: string)
    ensures Lower(Lower(s)) == Lower(s)
  {
    LowerOfLowered(Lower(s));
  }

  /** `pat` occurs in `s` starting at index `i`. */
  predicate OccursAt(s: string, pat: string, i: int)
  {
    0 <= i && i + |pat| <= |s| && s[i..i + |pat|] == pat
  }

  /** Python's `pat in s` for strings: does `pat` occur as a contiguous substring?
      The empty pattern occurs in every string. */
  function Contains(s: string, pat: string): (b: bool)
    ensures pat == [] ==> b
    ensures b ==> |pat| <= |s|
    ensures |pat| <= |s| && s[..|pat|] == pat ==> b
    decreases |s|
  {
    if |s| < |pat| then false
    else s[..|pat|] == pat || Contains(s[1..], pat)
  }

  /** An occurrence past the first position is an occurrence in the tail. */
  lemma OccursInTail(s: string, pat: string, i: int)
    requires OccursAt(s, pat, i) && i >= 1
    ensures OccursAt(s[1..], pat, i - 1)
  {
    assert s[1..][i - 1..i - 1 + |pat|] == s[i..i + |pat|];
  }

  /** `Contains` answers true exactly when the pattern occurs at some position. */
  lemma {:induction false} ContainsIff(s: string, pat: string)
    ensures Contains(s, pat) <==> exists i :: OccursAt(s, pat, i)
    decreases |s|
  {
    if |s| < |pat| {
      assert forall i :: !OccursAt(s, pat, i);
    } else if s[..|pat|] == pat {
      assert OccursAt(s, pat, 0);
    } else {
      ContainsIff(s[1..], pat);
      if Contains(s[1..], pat) {
        var i :| OccursAt(s[1..], pat, i);
        assert s[1..][i..i + |pat|] == s[i + 1..i + 1 + |pat|];
        assert OccursAt(s, pat, i + 1);
      } else {
        forall i | OccursAt(s, pat, i)
          ensures false
        {
          assert i != 0;
          OccursInTail(s, pat, i);
        }
      }
    }
  }

  /** Python's `w1 in s or w2 in s or ...`: some keyword of `words` occurs in `s`. */
  predicate MentionsAny(s: string, words: seq<string>)
    ensures forall k :: 0 <= k < |words| && Contains(s, words[k]) ==> MentionsAny(s, words)
  {
    words != [] && (Contains(s, words[0]) || MentionsAny(s, words[1..]))
  }

  /** `MentionsAny` holds exactly when one of the keywords occurs in `s`. */
  lemma {:induction false} MentionsAnyIff(s: string, words: seq<string>)
    ensures MentionsAny(s, words) <==> exists k :: 0 <= k < |words| && Contains(s, words[k])
  {
    if words != [] {
      MentionsAnyIff(s, words[1..]);
      if MentionsAny(s, words[1..]) {
        var k :| 0 <= k < |words[1..]| && Contains(s, words[1..][k]);
        assert Contains(s, words[k + 1]);
      }
    }
  }

  /** The first position of `c` in `s`, if any. */
  function FirstIndexOf(s: string, c: char): (r: Option<nat>)
    ensures r.Some? ==> r.value < |s| && s[r.value] == c
    ensures r.Some? ==> forall k :: 0 <= k < r.value ==> s[k] != c
    ensures r.None? ==> forall k :: 0 <= k < |s| ==> s[k] != c
  {
    if s == [] then None
    else if s[0] == c then Some(0)
    else match FirstIndexOf(s[1..], c)
      case None => None
      case Some(i) => Some(i + 1)
  }

  /** The last position of `c` in `s`, if any. */
  function LastIndexOf(s: string, c: char): (r: Option<nat>)
    ensures r.Some? ==> r.value < |s| && s[r.value] == c
    ensures r.Some? ==> forall k :: r.value < k < |s| ==> s[k] != c
    ensures r.None? ==> forall k :: 0 <= k < |s| ==> s[k] != c
  {
    if s == [] then None
    else if s[|s| - 1] == c then Some(|s| - 1)
    else LastIndexOf(s[..|s| - 1], c)
  }
}

=== FILE: wrappers.dfy ===
/** Optional values: Python's `None`-or-value, and the missing-key case of `dict.get`. */
module Wrappers {

  datatype Option<+T> = None | Some(value: T) {

    /** The wrapped value, or `default` when there is none. */
    function GetOr(default: T): (r: T)
    {
      match this
      case Some(v) => v
      case None => default
    }
  }
}
